=== FILE: README.md ===
# Vetrai authentication core in Dafny

A functional model of the JWT authentication core of the Vetrai backend: the
password hasher, access and refresh token issue and verification
(`AuthService`), the user directory with its default-admin bootstrap
(`UserService`), the records in `auth/models.py`, and the four `/api/auth`
handlers (`login`, `refresh_token`, `get_current_user`, `logout`). It also
models two small pieces of process-wide state: the tri-state availability
cache behind `has_vetrai_memory`, and the `LOGGING_CONFIGURED` flag.

Everything is a pure function over explicit inputs:

- the user table is a `seq<User>` in database order;
- the clock is `now: int`, in whole seconds;
- the signing secret, the token codec and the password key-derivation
  function are fields of `AuthService.Config`;
- fresh salts and database-assigned ids are parameters.

A token is the datatype `Token(alg, claims, key)`, where `claims` maps claim
names to values. The compact JWS text a client holds comes from a `Codec`
(`encode`/`decode`). Lemmas that need the wire format to behave assume only
`LawfulCodec`: decoding undoes encoding, and encoded text is one
whitespace-free word. An HMAC-SHA256 signature (section 3.2 of RFC 7518) is
represented by the key that made it, and a signature checks only against
the very same key string. Real HMAC (RFC 2104) is coarser: it zero-pads
short keys and hashes long ones, so distinct strings can sign alike; the
model treats such strings as different keys (see "## Left out").

Expiry follows the JWT library: a token is live while `now < exp`. At
`now == exp` it has expired.

Files:

| file | module |
|---|---|
| wrappers.dfy | `Option`, `Result` |
| pystr.dfy | Python `str.split()` and `str.lower()` |
| passwords.dfy | salted one-way hashing |
| jwt.dfy | claims, tokens, `jwt.decode` validation |
| models.dfy | `UserDB`, `UserSchema`, `LoginRequest`, `TokenData` |
| auth_service.dfy | `AuthService` |
| user_service.dfy | `UserService` |
| routes.dfy | the handlers |
| route_properties.dfy | what the handlers promise |
| availability.dfy | `_VetraiModule` and `has_vetrai_memory` |
| logging_setup.dfy | `disable_logging` / `enable_logging` |

## Model

| member | source | states |
|---|---|---|
| Passwords.VerifyAcceptsOwnHash | src/backend/base/vetrai/auth/service.py:24-32 | a password verifies against its own hash under any salt and any key-derivation function |
| Passwords.VerifyRejectsOtherPassword | src/backend/base/vetrai/auth/service.py:29-32 | any other password is rejected when the derivation is collision-free |
| Passwords.HashPassword | src/backend/base/vetrai/auth/service.py:24-27 | the digest keeps the salt it was made under; `VerifyAcceptsOwnHash` shows the password verifies against it |
| Passwords.VerifyPassword | src/backend/base/vetrai/auth/service.py:29-32 | a plaintext verifies exactly when hashing it under the digest's own salt reproduces the stored digest |
| Jwt.Decode | src/backend/base/vetrai/auth/service.py:73-74 | a successful decode means the text parsed to a token signed with the given key, under an allowed algorithm, and any `exp` in it is an integer later than `now`; the escaping `TypeError` occurs exactly for such a token whose `exp` is null, a list or an object |
| Jwt.DecodeEncoded | src/backend/base/vetrai/auth/service.py:87-88 | an encoded token decodes to its exact claims before `exp`, and fails as expired from `exp` on |
| Jwt.DecodeOtherKey | src/backend/base/vetrai/auth/service.py:89-90 | a token signed with any HMAC-inequivalent key fails with a bad signature |
| AuthService.AccessLifetime | src/backend/base/vetrai/auth/service.py:37-38 | the lifetime is 30 minutes when no `expires_delta` is given, and exactly the given delta otherwise |
| AuthService.AccessClaims | src/backend/base/vetrai/auth/service.py:42-50 | the access payload has exactly the keys user_id, username, email, org_id, role, exp and type, holding the user's values, the expiry and "access" |
| AuthService.RefreshClaims | src/backend/base/vetrai/auth/service.py:61-65 | the refresh payload has exactly the keys user_id, exp and type="refresh", so no username, org or role |
| AuthService.CreateAccessToken | src/backend/base/vetrai/auth/service.py:34-53 | under a lawful codec, the issued text decodes to an HS256 token signed with the secret key whose payload is the user's access claims expiring after the given delta or 30 minutes |
| AuthService.CreateRefreshToken | src/backend/base/vetrai/auth/service.py:55-68 | under a lawful codec, the issued text decodes to an HS256 token signed with the secret key whose payload is the user's refresh claims expiring after 7 days |
| AuthService.VerifyToken | src/backend/base/vetrai/auth/service.py:70-90 | token data is returned only for an authentic, live, access-typed token, and equals that token's claims; an exception escapes only for an authentic token whose `exp` is null, a list or an object, or whose access-typed payload lacks a field, and always for the former |
| AuthService.VerifyRefreshToken | src/backend/base/vetrai/auth/service.py:92-105 | a payload is returned only for an authentic, live, refresh-typed token, and is exactly that token's claims; an exception escapes exactly for an authentic token whose `exp` is null, a list or an object |
| AuthService.AccessTokenRoundTrip | src/backend/base/vetrai/auth/service.py:34-86 | verifying an issued access token before `now + delta` yields the user's id, username, email, org_id, role and the issued exp; from then on it is rejected as expired |
| AuthService.RefreshTokenRoundTrip | src/backend/base/vetrai/auth/service.py:55-101 | a refresh token verifies to exactly its three claims for 7 days, then is rejected as expired |
| AuthService.RefreshTokenCarriesOnlyId | src/backend/base/vetrai/auth/service.py:56-65 | a live refresh token verifies to a payload with exactly user_id, exp and type, and no username, email, org_id or role |
| AuthService.VerifiersDisjoint | src/backend/base/vetrai/auth/service.py:76-77 | no text is accepted by both the access and the refresh verifier |
| AuthService.TokenTypesNotInterchangeable | src/backend/base/vetrai/auth/service.py:98-99 | a live refresh token is rejected as the wrong type by `verify_token`, and a live access token by `verify_refresh_token` |
| AuthService.ForeignKeyRejected | src/backend/base/vetrai/auth/service.py:102-105 | a token signed with any HMAC-inequivalent key is rejected by both verifiers, whatever its claims |
| AuthService.OtherAlgorithmRejected | src/backend/base/vetrai/auth/service.py:74 | a token whose header names any algorithm but HS256, "none" included, is rejected by both verifiers |
| AuthService.RefreshClaimsAreNotTokenData | src/backend/base/vetrai/auth/service.py:79-86 | a refresh payload cannot be turned into `TokenData` |
| Models.NewUser | src/backend/base/vetrai/auth/models.py:19-22 | a new row defaults to active, not superuser, org 1 and role "user" |
| Models.ToSchema | src/backend/base/vetrai/auth/models.py:27-37 | the public schema copies id, username, email, full name, flags, org, role and creation time from the row |
| Models.SchemaHidesPassword | src/backend/base/vetrai/auth/models.py:28-36 | rows that differ only in password hash give the same public schema |
| Models.ReadTokenData | src/backend/base/vetrai/auth/models.py:56-63 | `TokenData` exists exactly when all six fields are present with the right types, and then holds the payload's values |
| UserService.GetUserByUsername | src/backend/base/vetrai/auth/service.py:138-146 | returns a stored user with that username, and None exactly when no stored user has it |
| UserService.GetUserById | src/backend/base/vetrai/auth/service.py:148-156 | returns a stored user with that id, and None exactly when no stored user has it |
| UserService.LookupFindsTheUser | src/backend/base/vetrai/auth/models.py:14-16 | under the primary-key and unique constraints, a stored user is found by its username and by its id |
| UserService.CreateDefaultUser | src/backend/base/vetrai/auth/service.py:111-136 | on a non-empty store nothing changes and None is returned; on an empty store the result is exactly one admin with the fixed fields and the hash of "admin123" |
| UserService.BootstrapIdempotent | src/backend/base/vetrai/auth/service.py:116-119 | a second bootstrap after the first changes nothing |
| UserService.BootstrapKeepsKeysAndAdminPassword | src/backend/base/vetrai/auth/service.py:121-134 | bootstrap keeps the key constraints, and the bootstrapped admin is found by name and accepts "admin123" |
| RouteProperties.LoginRequestValidation | src/backend/base/vetrai/auth/models.py:43-46 | login is refused before any lookup exactly when the username is shorter than 3 or the password shorter than 6 |
| RouteProperties.LoginNoEnumeration | src/backend/base/vetrai/auth/routes.py:23-36 | an unknown username and a wrong password, on an active or inactive account, give identical 401 answers |
| RouteProperties.LoginIssuesTokensForUser | src/backend/base/vetrai/auth/routes.py:44-52 | a successful login returns the user's schema, an access token verifying to that user for 30 minutes, and a refresh token for that user for 7 days |
| RouteProperties.RefreshReflectsStore | src/backend/base/vetrai/auth/routes.py:67-82 | a refresh token issued for an older record yields an access token with the current stored role, org, username and email; a deactivated record gets 401 |
| RouteProperties.RefreshRejectsAccessToken | src/backend/base/vetrai/auth/routes.py:59-65 | an access token, live or expired, is refused by refresh with 401 |
| Routes.ParseBearer | src/backend/base/vetrai/auth/routes.py:98-101 | a parsed token is a single non-empty whitespace-free word |
| Routes.Login | src/backend/base/vetrai/auth/routes.py:19-52 | 422 exactly for an invalid request; otherwise 401 iff no user has that name or the password fails, 403 iff it verifies for an inactive user, success iff it verifies for an active one, and a success carries the stored user's schema with fresh access and refresh tokens |
| Routes.Refresh | src/backend/base/vetrai/auth/routes.py:55-82 | 401 "Invalid or expired refresh token" exactly when refresh verification answers None; a server error exactly when verification raises or a verified payload lacks `user_id`; 401 "User not found or inactive" for a missing or inactive user; a success names an active stored user, mints a new access token for that record and echoes the refresh token |
| Routes.Me | src/backend/base/vetrai/auth/routes.py:85-126 | an absent or empty header gives 401 "Missing authorization header", an unparsable one 401 "Invalid authorization header format"; a success needs a bearer token that verifies as a valid access token naming an active stored user, and returns that user's schema |
| RouteProperties.ParseBearerSound | src/backend/base/vetrai/auth/routes.py:99-100 | a parse succeeds only for exactly two parts with a "bearer" scheme, and the token is the header's non-space text after the scheme |
| RouteProperties.ParseBearerOfJoined | src/backend/base/vetrai/auth/routes.py:98-106 | "scheme token" parses to the token exactly when the scheme lowers to "bearer" |
| RouteProperties.BearerHeader | src/backend/base/vetrai/auth/routes.py:97 | the header "Bearer " plus a token parses back to that token |
| RouteProperties.MeHeaderFailures | src/backend/base/vetrai/auth/routes.py:91-106 | an absent or empty header gives 401 "Missing authorization header"; a present header gives 401 "Invalid authorization header format" iff it does not split into two parts with a "bearer" scheme |
| RouteProperties.MeRejectsBasicScheme | src/backend/base/vetrai/auth/routes.py:100-106 | `Authorization: Basic abc` gets 401, not 403 or 500 |
| RouteProperties.MeOutcomes | src/backend/base/vetrai/auth/routes.py:108-126 | for a well-formed bearer header: 401 "Invalid or expired token" when verification answers None; a server error when it raises; 401 "User not found or inactive" for a missing or inactive user; otherwise the stored user's schema |
| RouteProperties.MeRejectsExpiredOrForeignToken | src/backend/base/vetrai/auth/routes.py:109-115 | an issued access token presented at or after its expiry, and any token signed with a key string other than the secret, get 401 "Invalid or expired token" |
| RouteProperties.MeUsesStoredUser | src/backend/base/vetrai/auth/routes.py:117-126 | a live access token for an older record resolves to the current stored record, and gets 401 once that record is inactive |
| RouteProperties.MeRejectsRefreshToken | src/backend/base/vetrai/auth/routes.py:109-115 | a refresh token in the bearer header gets 401 "Invalid or expired token" |
| RouteProperties.UnconvertibleExpIsServerError | src/backend/base/vetrai/auth/service.py:74-90 | an authentic token whose `exp` is null, a list or an object makes both verifiers raise, so `/me` and `/refresh` answer with a server error rather than 401 |
| RouteProperties.AdminLoginAfterBootstrap | src/backend/base/vetrai/auth/service.py:122-131 | on a freshly bootstrapped store, admin/admin123 logs in, and the access token carries role super_admin, org 1 and the admin's id |
| Routes.Logout | src/backend/base/vetrai/auth/routes.py:129-132 | logout takes no state and always answers "Logged out successfully" |
| PyStr.Split | src/backend/base/vetrai/auth/routes.py:99 | every part `str.split()` returns is a non-empty, whitespace-free word |
| PyStr.SplitOneWord | src/backend/base/vetrai/auth/routes.py:99 | a single whitespace-free word splits to itself |
| PyStr.SplitAtSpace | src/backend/base/vetrai/auth/routes.py:99 | every whitespace character is a split point: the text before and after it split independently, so tabs and runs of spaces separate exactly like one space |
| PyStr.SplitKeepsText | src/backend/base/vetrai/auth/routes.py:99 | the parts concatenate to the input with its whitespace removed |
| PyStr.SplitJoinSpaced | src/backend/base/vetrai/auth/routes.py:98 | splitting words joined by single spaces gives back those words |
| PyStr.LowerIsBearer | src/backend/base/vetrai/auth/routes.py:100 | `s.lower() == "bearer"` holds exactly for the mixed-case spellings of "bearer" |
| VetraiAvailability.HasVetraiMemory | src/lfx/src/lfx/utils/vetrai_utils.py:33-36 | with a cached value the call returns it, probes nothing and leaves the cache alone; a returned value is always what the cache then holds |
| VetraiAvailability.FirstCheck | src/lfx/src/lfx/utils/vetrai_utils.py:40-49 | the first check returns true exactly when the probe found a spec; ImportError, TypeError and ValueError give false; any other exception escapes |
| VetraiAvailability.CachedRunIsConstant | src/lfx/src/lfx/utils/vetrai_utils.py:10-14 | once the cache holds a value, every call returns that value without probing |
| VetraiAvailability.AnswerIsStable | src/lfx/src/lfx/utils/vetrai_utils.py:50-52 | after a call has returned, every later call returns the same value, whatever the probe would now say |
| LoggingSetup.Apply | src/backend/base/vetrai/logging/setup.py:6-15 | disable calls the logger only when the flag is clear; with the flag set it is a no-op; enable always calls the logger; afterwards the flag is set |
| LoggingSetup.NoDisableOnceConfigured | src/backend/base/vetrai/logging/setup.py:8 | once the flag is set, no run disables the logger |
| LoggingSetup.RunCalls | src/backend/base/vetrai/logging/setup.py:6-16 | over any run, the logger is disabled at most once, and never if the flag started set; it is enabled once per `enable_logging`; the flag ends set after any operation |
| LoggingSetup.EnableIsFinal | src/backend/base/vetrai/logging/setup.py:13-16 | after `enable_logging`, no later `disable_logging` turns logging off |

## Left out

- Wire format: base64url, JSON and the HMAC computation (RFC 7515 and RFC 7519) are abstracted by the `Codec` and the signing key.
- The JWT library version: `except jwt.JWTError` names an exception class that the library imported as `jwt` may not define. If it does not, a token with a bad signature, malformed text or a disallowed algorithm would raise instead of returning None. The model returns the intended None.
- JWT claims other than `exp` (`nbf`, `iat`, `aud`, `iss`) are not validated.
- Jwt.Decode: an `exp` that is a float, a bool or a numeric string is treated as malformed, whereas the library converts it with `int()` and then checks the result. A non-numeric string makes `int()` raise `ValueError`, which the library reports as a decode error, as the model does; a null, list or object `exp` raises a `TypeError` that escapes, as modelled.
- Sub-second time: `int(expire.timestamp())` truncates fractional seconds, and the clock here is whole seconds.
- bcrypt and passlib: the key derivation is an arbitrary function. bcrypt's 72-byte truncation, its work factor, constant-time comparison and passlib's handling of unrecognised hash strings are not modelled. Stored digests are always well-formed.
- Jwt.DecodeOtherKey, AuthService.ForeignKeyRejected and RouteProperties.MeRejectsExpiredOrForeignToken: keys are compared as strings, not up to HMAC equivalence. HMAC zero-pads short keys and hashes long ones, so for instance `SECRET_KEY` and `SECRET_KEY` followed by a NUL byte sign alike and the library accepts both; the model calls those different keys and rejects one. SHA-256 is not modelled.
- Passwords.VerifyRejectsOtherPassword: requires a collision-free key derivation, which bcrypt is not for passwords that agree on their first 72 bytes.
- Models.User: `is_active`, `is_superuser`, `org_id`, `role`, `created_at` and `updated_at` are taken as non-NULL, although the columns are nullable (only `full_name` is optional here). In the program a NULL `org_id` or `role` makes login end in a server error at `UserSchema.from_orm`, and makes `verify_token` raise on that user's access tokens, so `/me` is a server error too; the model has no such rows and cannot express those outcomes.
- Pydantic coercion: `TokenData` fields must have exactly the declared JSON type. Lax-mode coercion (for example "5" to 5) is not modelled.
- Refresh with a non-integer `user_id` claim is modelled as "no such user" (401), not as database-specific behaviour. A missing `user_id` is a server error, as the unhandled `KeyError` is.
- Database sessions, the async `get_db` dependency, FastAPI routing and the shape of the 422 validation body. Validation is the predicate `ValidLoginRequest`. `created_at`/`updated_at` are taken from `now`, and `onupdate` is not modelled because nothing here updates a row.
- Concurrent bootstrap: `create_default_user` is a plain check-then-insert with no conflict handling. Two processes starting on an empty table would both insert, and the second insert fails on the unique username. The model is sequential and does not add a race guard the code lacks.
- `SECRET_KEY` comes from the environment with an insecure default. Here it is the configuration field `secretKey`.
- Logging side effects: the `logger.error` call for TypeError/ValueError probes is reduced to the `errorLogged` flag. What loguru does with `disable`/`enable` is reduced to "the last call wins".
- `_VetraiModule.set_available` with an arbitrary value is not modelled separately. The cache is only ever written by `has_vetrai_memory`.
- Python's `str.lower()` is modelled as ASCII case folding. This is exact for comparison with "bearer": the only non-ASCII code points whose lower case contains an ASCII letter give "k" (U+212A) or "i" (U+0130), and neither letter is in "bearer".

=== FILE: auth_service.dfy ===
/** `AuthService`: issuing and verifying the access and refresh tokens, and the
    password operations it exposes. The signing secret, the token codec and the
    password key-derivation function are explicit configuration; the clock is
    the parameter `now`, in whole seconds. */
module AuthService {
  import opened Wrappers
  import Passwords
  import Jwt
  import Models

  const ALGORITHM: string := "HS256"
  const ACCESS_TOKEN_EXPIRE_MINUTES: int := 30
  const REFRESH_TOKEN_EXPIRE_DAYS: int := 7

  /** The two lifetimes in seconds. */
  const ACCESS_TOKEN_LIFETIME: int := ACCESS_TOKEN_EXPIRE_MINUTES * 60
  const REFRESH_TOKEN_LIFETIME: int := REFRESH_TOKEN_EXPIRE_DAYS * 24 * 60 * 60

  const ACCESS_TYPE: string := "access"
  const REFRESH_TYPE: string := "refresh"

  datatype Config = Config(secretKey: string, codec: Jwt.Codec, kdf: Passwords.Kdf)

  function VerifyPassword(cfg: Config, plain: string, hashed: Passwords.Digest): bool {
    Passwords.VerifyPassword(cfg.kdf, plain, hashed)
  }

  /** The token data an access token for `u` expiring at `exp` verifies to. */
  function TokenDataOf(u: Models.User, exp: int): Models.TokenData {
    Models.TokenData(u.id, u.username, u.email, u.orgId, u.role, exp)
  }

  /** The lifetime an access token is issued with: the caller's `expires_delta`
      when one is given (zero and negative included), 30 minutes otherwise. */
  function AccessLifetime(expiresDelta: Option<int>): (d: int)
    ensures expiresDelta.None? ==> d == 30 * 60
    ensures expiresDelta.Some? ==> d == expiresDelta.value
  {
    match expiresDelta
    case None => ACCESS_TOKEN_LIFETIME
    case Some(delta) => delta
  }

  /** The access-token payload: the user's identity, tenant and role, the
      expiry, and the type discriminator. */
  function AccessClaims(u: Models.User, exp: int): (p: Jwt.Payload)
    ensures p.Keys == {"user_id", "username", "email", "org_id", "role", "exp", "type"}
    ensures p["type"] == Jwt.StrClaim("access") && p["exp"] == Jwt.IntClaim(exp)
    ensures p["user_id"] == Jwt.IntClaim(u.id) && p["org_id"] == Jwt.IntClaim(u.orgId)
    ensures p["username"] == Jwt.StrClaim(u.username) && p["email"] == Jwt.StrClaim(u.email)
    ensures p["role"] == Jwt.StrClaim(u.role)
  {
    map[
      "user_id" := Jwt.IntClaim(u.id),
      "username" := Jwt.StrClaim(u.username),
      "email" := Jwt.StrClaim(u.email),
      "org_id" := Jwt.IntClaim(u.orgId),
      "role" := Jwt.StrClaim(u.role),
      "exp" := Jwt.IntClaim(exp),
      "type" := Jwt.StrClaim(ACCESS_TYPE)]
  }

  /** The refresh-token payload: only the user id, the expiry and the type;
      no username, email, organisation or role. */
  function RefreshClaims(u: Models.User, exp: int): (p: Jwt.Payload)
    ensures p.Keys == {"user_id", "exp", "type"}
    ensures p["user_id"] == Jwt.IntClaim(u.id) && p["exp"] == Jwt.IntClaim(exp)
    ensures p["type"] == Jwt.StrClaim("refresh")
  {
    map["user_id" := Jwt.IntClaim(u.id), "exp" := Jwt.IntClaim(exp), "type" := Jwt.StrClaim(REFRESH_TYPE)]
  }

  /** `create_access_token(user, expires_delta)` at time `now`. */
  function CreateAccessToken(cfg: Config, u: Models.User, now: int, expiresDelta: Option<int>): (text: string)
    ensures Jwt.LawfulCodec(cfg.codec) ==>
      cfg.codec.decode(text) == Some(Jwt.Token("HS256", AccessClaims(u, now + AccessLifetime(expiresDelta)), cfg.secretKey))
  {
    Jwt.Encode(cfg.codec, AccessClaims(u, now + AccessLifetime(expiresDelta)), cfg.secretKey, ALGORITHM)
  }

  /** `create_refresh_token(user)` at time `now`. */
  function CreateRefreshToken(cfg: Config, u: Models.User, now: int): (text: string)
    ensures Jwt.LawfulCodec(cfg.codec) ==>
      cfg.codec.decode(text) == Some(Jwt.Token("HS256", RefreshClaims(u, now + 7 * 24 * 60 * 60), cfg.secretKey))
  {
    Jwt.Encode(cfg.codec, RefreshClaims(u, now + REFRESH_TOKEN_LIFETIME), cfg.secretKey, ALGORITHM)
  }

  /** Why a verifier answered None: the library refused the token, or the
      payload's `type` was not the one asked for. */
  datatype Rejection = Undecodable(error: Jwt.DecodeError) | WrongType

  /** The outcome of a verifier: its result, None (with the reason), or an
      exception escaping it. */
  datatype Verdict<+T> = Valid(data: T) | Invalid(reason: Rejection) | Raises

  /** `verify_token` raises for an authentic token whose `exp` `int()` cannot
      convert, and for an authentic access-typed payload lacking a
      `TokenData` field. */
  type AccessVerdict = Verdict<Models.TokenData>

  /** `verify_refresh_token` raises only for the unconvertible `exp`. */
  type RefreshVerdict = Verdict<Jwt.Payload>

  /** `payload.get("type") == expected`. */
  predicate HasType(p: Jwt.Payload, expected: string) {
    "type" in p && p["type"] == Jwt.StrClaim(expected)
  }

  /** A token the service itself could have signed: well-formed, HS256, signed
      with the service secret. */
  ghost predicate Authentic(cfg: Config, text: string, t: Jwt.Token) {
    cfg.codec.decode(text) == Some(t) && t.alg == ALGORITHM && t.key == cfg.secretKey
  }

  /** The token `text` parses to is signed by the service and has an `exp`
      that `int()` cannot convert. */
  predicate ExpRaises(cfg: Config, text: string) {
    && cfg.codec.decode(text).Some?
    && var t := cfg.codec.decode(text).value;
    && t.alg == ALGORITHM && t.key == cfg.secretKey && Jwt.ExpUnconvertible(t.claims)
  }

  /** `verify_token(token)`. */
  function VerifyToken(cfg: Config, text: string, now: int): (r: AccessVerdict)
    ensures r.Valid? ==> exists t ::
              && Authentic(cfg, text, t)
              && HasType(t.claims, "access")
              && Models.ReadTokenData(t.claims) == Some(r.data)
              && now < r.data.exp
    ensures r.Raises? ==> exists t ::
              && Authentic(cfg, text, t)
              && (Jwt.ExpUnconvertible(t.claims) ||
                  (HasType(t.claims, "access") && Models.ReadTokenData(t.claims).None?))
    ensures ExpRaises(cfg, text) ==> r.Raises?
  {
    match Jwt.Decode(cfg.codec, text, cfg.secretKey, {ALGORITHM}, now)
    case Failure(ExpTypeError) => Raises
    case Failure(e) => Invalid(Undecodable(e))
    case Success(p) =>
      if !HasType(p, ACCESS_TYPE) then Invalid(WrongType)
      else match Models.ReadTokenData(p)
        case None => Raises
        case Some(data) => Valid(data)
  }

  /** `verify_refresh_token(token)`: the whole payload, None, or an escaping
      exception. */
  function VerifyRefreshToken(cfg: Config, text: string, now: int): (r: RefreshVerdict)
    ensures r.Valid? ==> exists t ::
              && Authentic(cfg, text, t)
              && t.claims == r.data
              && HasType(r.data, "refresh")
    ensures r.Valid? ==> "exp" in r.data ==> r.data["exp"].IntClaim? && now < r.data["exp"].i
    ensures r.Raises? <==> ExpRaises(cfg, text)
  {
    match Jwt.Decode(cfg.codec, text, cfg.secretKey, {ALGORITHM}, now)
    case Failure(ExpTypeError) => Raises
    case Failure(e) => Invalid(Undecodable(e))
    case Success(p) =>
      if !HasType(p, REFRESH_TYPE) then Invalid(WrongType) else Valid(p)
  }

  /** Round trip: an access token issued at `issuedAt` verifies, while it is
      live, to exactly the user's identity, tenant, role and the issued expiry;
      from its expiry on it is rejected as expired. */
  lemma AccessTokenRoundTrip(cfg: Config, u: Models.User, issuedAt: int, expiresDelta: Option<int>, now: int)
    requires Jwt.LawfulCodec(cfg.codec)
    ensures var exp := issuedAt + AccessLifetime(expiresDelta);
      && (now < exp ==> VerifyToken(cfg, CreateAccessToken(cfg, u, issuedAt, expiresDelta), now)
                          == Valid(TokenDataOf(u, exp)))
      && (exp <= now ==> VerifyToken(cfg, CreateAccessToken(cfg, u, issuedAt, expiresDelta), now)
                          == Invalid(Undecodable(Jwt.Expired)))
  {
    var exp := issuedAt + AccessLifetime(expiresDelta);
    Jwt.DecodeEncoded(cfg.codec, AccessClaims(u, exp), cfg.secretKey, ALGORITHM, {ALGORITHM}, exp, now);
  }

  /** Round trip: a refresh token verifies, while live, to exactly its three
      claims, and is rejected as expired from seven days after issue. */
  lemma RefreshTokenRoundTrip(cfg: Config, u: Models.User, issuedAt: int, now: int)
    requires Jwt.LawfulCodec(cfg.codec)
    ensures var exp := issuedAt + 7 * 24 * 60 * 60;
      && (now < exp ==> VerifyRefreshToken(cfg, CreateRefreshToken(cfg, u, issuedAt), now)
                          == Valid(RefreshClaims(u, exp)))
      && (exp <= now ==> VerifyRefreshToken(cfg, CreateRefreshToken(cfg, u, issuedAt), now)
                          == Invalid(Undecodable(Jwt.Expired)))
  {
    var exp := issuedAt + REFRESH_TOKEN_LIFETIME;
    Jwt.DecodeEncoded(cfg.codec, RefreshClaims(u, exp), cfg.secretKey, ALGORITHM, {ALGORITHM}, exp, now);
  }

  /** What a live refresh token reveals once verified: the user id, the
      expiry and the type, and nothing of the user's name, email, organisation
      or role. */
  lemma RefreshTokenCarriesOnlyId(cfg: Config, u: Models.User, issuedAt: int, now: int)
    requires Jwt.LawfulCodec(cfg.codec)
    requires now < issuedAt + 7 * 24 * 60 * 60
    ensures var r := VerifyRefreshToken(cfg, CreateRefreshToken(cfg, u, issuedAt), now);
      && r.Valid?
      && r.data.Keys == {"user_id", "exp", "type"}
      && r.data["user_id"] == Jwt.IntClaim(u.id)
      && "role" !in r.data && "org_id" !in r.data && "username" !in r.data && "email" !in r.data
  {
    RefreshTokenRoundTrip(cfg, u, issuedAt, now);
  }

  /** No text is accepted by both verifiers: each demands its own `type`. */
  lemma VerifiersDisjoint(cfg: Config, text: string, now: int)
    ensures !(VerifyToken(cfg, text, now).Valid? && VerifyRefreshToken(cfg, text, now).Valid?)
  {
  }

  /** Type confusion, both ways: a live refresh token is not an access token,
      and a live access token is not a refresh token. */
  lemma TokenTypesNotInterchangeable(cfg: Config, u: Models.User, issuedAt: int, expiresDelta: Option<int>, now: int)
    requires Jwt.LawfulCodec(cfg.codec)
    ensures now < issuedAt + 7 * 24 * 60 * 60 ==>
      VerifyToken(cfg, CreateRefreshToken(cfg, u, issuedAt), now) == Invalid(WrongType)
    ensures now < issuedAt + AccessLifetime(expiresDelta) ==>
      VerifyRefreshToken(cfg, CreateAccessToken(cfg, u, issuedAt, expiresDelta), now) == Invalid(WrongType)
  {
    RefreshTokenRoundTrip(cfg, u, issuedAt, now);
    AccessTokenRoundTrip(cfg, u, issuedAt, expiresDelta, now);
  }

  /** A token signed with a key other than the service secret is rejected by
      both verifiers, whatever its claims and however far from expiry. */
  lemma ForeignKeyRejected(cfg: Config, claims: Jwt.Payload, otherKey: string, now: int)
    requires Jwt.LawfulCodec(cfg.codec)
    requires otherKey != cfg.secretKey
    ensures VerifyToken(cfg, Jwt.Encode(cfg.codec, claims, otherKey, ALGORITHM), now)
            == Invalid(Undecodable(Jwt.BadSignature))
    ensures VerifyRefreshToken(cfg, Jwt.Encode(cfg.codec, claims, otherKey, ALGORITHM), now)
            == Invalid(Undecodable(Jwt.BadSignature))
  {
    Jwt.DecodeOtherKey(cfg.codec, claims, otherKey, cfg.secretKey, ALGORITHM, {ALGORITHM}, now);
  }

  /** A token whose header names any algorithm other than HS256 (including
      "none") is rejected by both verifiers. */
  lemma OtherAlgorithmRejected(cfg: Config, claims: Jwt.Payload, key: string, alg: string, now: int)
    requires Jwt.LawfulCodec(cfg.codec)
    requires alg != "HS256"
    ensures VerifyToken(cfg, Jwt.Encode(cfg.codec, claims, key, alg), now)
            == Invalid(Undecodable(Jwt.DisallowedAlgorithm))
    ensures VerifyRefreshToken(cfg, Jwt.Encode(cfg.codec, claims, key, alg), now)
            == Invalid(Undecodable(Jwt.DisallowedAlgorithm))
  {
    assert cfg.codec.decode(cfg.codec.encode(Jwt.Token(alg, claims, key))) == Some(Jwt.Token(alg, claims, key));
  }

  /** A refresh payload cannot populate `TokenData`: it has no username. */
  lemma RefreshClaimsAreNotTokenData(u: Models.User, exp: int)
    ensures Models.ReadTokenData(RefreshClaims(u, exp)).None?
  {
  }
}

=== FILE: availability.dfy ===
/** `has_vetrai_memory` and the tri-state `_VetraiModule._available` cache
    behind it. The module probe (`importlib.util.find_spec("vetrai")`) is a
    parameter describing what the probe would do if it were called. */
module VetraiAvailability {
  import opened Wrappers

  /** `_available`: None until the first completed check, then the result. */
  datatype Cache = Unchecked | Cached(available: bool)

  datatype ProbeError = ImportError | TypeError | ValueError | OtherError

  /** What `find_spec` does when called: find a spec, return None, or raise. */
  datatype Probe = SpecFound | SpecNotFound | ProbeRaises(error: ProbeError)

  /** One call of `has_vetrai_memory`: the value returned (whether the probe
      ran, whether an error was logged), or an exception propagated. */
  datatype Call = Returned(value: bool, probed: bool, errorLogged: bool) | Propagated(error: ProbeError)

  datatype Step = Step(call: Call, cache: Cache)

  /** `_VetraiModule.is_available()`. */
  function IsAvailable(cache: Cache): Option<bool> {
    match cache
    case Unchecked => None
    case Cached(b) => Some(b)
  }

  /** `has_vetrai_memory()` against the cache and the probe's behaviour. */
  function HasVetraiMemory(cache: Cache, probe: Probe): (s: Step)
    ensures cache.Cached? ==> s == Step(Returned(cache.available, false, false), cache)
    ensures s.call.Returned? ==> s.cache == Cached(s.call.value) && IsAvailable(s.cache) == Some(s.call.value)
    ensures s.call.Propagated? ==> s.cache == Unchecked
  {
    match cache
    case Cached(b) => Step(Returned(b, false, false), cache)
    case Unchecked =>
      match probe
      case SpecFound => Step(Returned(true, true, false), Cached(true))
      case SpecNotFound => Step(Returned(false, true, false), Cached(false))
      case ProbeRaises(ImportError) => Step(Returned(false, true, false), Cached(false))
      case ProbeRaises(TypeError) => Step(Returned(false, true, true), Cached(false))
      case ProbeRaises(ValueError) => Step(Returned(false, true, true), Cached(false))
      case ProbeRaises(OtherError) => Step(Propagated(OtherError), Unchecked)
  }

  /** The first check: it returns true exactly when the probe found a spec;
      a probe raising `ImportError`, `TypeError` or `ValueError` counts as
      "not available"; any other exception escapes and nothing is cached. */
  lemma FirstCheck(probe: Probe)
    ensures HasVetraiMemory(Unchecked, probe).call.Returned? <==> probe != ProbeRaises(OtherError)
    ensures HasVetraiMemory(Unchecked, probe).call.Returned? ==>
            (HasVetraiMemory(Unchecked, probe).call.value <==> probe == SpecFound)
    ensures HasVetraiMemory(Unchecked, probe).call.Returned? ==> HasVetraiMemory(Unchecked, probe).call.probed
  {
  }

  /** A sequence of calls, each against the cache the previous one left. */
  function Run(cache: Cache, probes: seq<Probe>): (calls: seq<Call>)
    ensures |calls| == |probes|
    decreases |probes|
  {
    if |probes| == 0 then []
    else
      var s := HasVetraiMemory(cache, probes[0]);
      [s.call] + Run(s.cache, probes[1..])
  }

  /** With a cached answer, every call returns it without probing. */
  lemma {:induction false} CachedRunIsConstant(b: bool, probes: seq<Probe>)
    ensures forall i :: 0 <= i < |probes| ==> Run(Cached(b), probes)[i] == Returned(b, false, false)
    decreases |probes|
  {
    if |probes| > 0 {
      CachedRunIsConstant(b, probes[1..]);
      var calls := Run(Cached(b), probes);
      assert calls == [Returned(b, false, false)] + Run(Cached(b), probes[1..]);
    }
  }

  /** Once a call has returned a value, every later call returns that same
      value, without probing, whatever the probe would now report. */
  lemma {:induction false} AnswerIsStable(cache: Cache, probes: seq<Probe>)
    ensures forall i, j :: 0 <= i < j < |probes| && Run(cache, probes)[i].Returned? ==>
              Run(cache, probes)[j] == Returned(Run(cache, probes)[i].value, false, false)
    decreases |probes|
  {
    if |probes| > 0 {
      var s := HasVetraiMemory(cache, probes[0]);
      var calls := Run(cache, probes);
      var rest := Run(s.cache, probes[1..]);
      assert calls == [s.call] + rest;
      AnswerIsStable(s.cache, probes[1..]);
      if s.call.Returned? {
        CachedRunIsConstant(s.call.value, probes[1..]);
      }
      forall i, j | 0 <= i < j < |probes| && calls[i].Returned?
        ensures calls[j] == Returned(calls[i].value, false, false)
      {
        assert calls[j] == rest[j - 1];
        if i > 0 {
          assert calls[i] == rest[i - 1];
        }
      }
    }
  }
}

=== FILE: jwt.dfy ===
/** Signed claim sets in the shape of a JSON Web Token (RFC 7519) signed with
    HMAC-SHA256 (section 3.2 of RFC 7518), and the validation the JWT library
    applies in `jwt.decode`. The byte encoding is abstracted: a `Codec` turns a
    structured `Token` into the compact string the client holds and back, and
    the HMAC is represented by the key the token was signed with: a signature
    checks only against the very same key string. (Real HMAC zero-pads short
    keys and hashes long ones, so some distinct strings sign alike; the model
    does not identify them.) */
module Jwt {
  import opened Wrappers
  import PyStr

  /** A claim value as it comes out of the JSON payload. `ScalarClaim` stands
      for a JSON float or boolean; `OtherClaim` for a null, list or object
      value, which Python's `int()` refuses with a `TypeError`. */
  datatype ClaimValue = IntClaim(i: int) | StrClaim(s: string) | ScalarClaim | OtherClaim

  type Payload = map<string, ClaimValue>

  /** The structured content of a compact JWS: header algorithm, payload and the
      key its signature was computed with. */
  datatype Token = Token(alg: string, claims: Payload, key: string)

  /** The compact serialisation: `encode` produces the string handed to the
      client, `decode` parses one (None for text that is not a JWT at all). */
  datatype Codec = Codec(encode: Token -> string, decode: string -> Option<Token>)

  /** What every JWS compact serialisation satisfies: parsing undoes encoding,
      and the encoded form is one non-empty run of base64url characters and
      dots, so it contains no whitespace. */
  ghost predicate LawfulCodec(codec: Codec) {
    forall t :: codec.decode(codec.encode(t)) == Some(t) && PyStr.IsWord(codec.encode(t))
  }

  /** How `jwt.decode` fails. The first four are the library's failure classes
      (`DecodeError`, `InvalidAlgorithmError`, `InvalidSignatureError`,
      `ExpiredSignatureError`). `ExpTypeError` is not one of them: the library
      converts `exp` with `int()` and catches only `ValueError`, so the
      `TypeError` for a null, list or object `exp` escapes `jwt.decode`. */
  datatype DecodeError = Malformed | DisallowedAlgorithm | BadSignature | Expired | ExpTypeError

  /** The `exp` claim is present but `int()` cannot even attempt it. */
  predicate ExpUnconvertible(claims: Payload) {
    "exp" in claims && claims["exp"].OtherClaim?
  }

  /** `jwt.encode(payload, key, algorithm=alg)`. */
  function Encode(codec: Codec, claims: Payload, key: string, alg: string): string {
    codec.encode(Token(alg, claims, key))
  }

  /** True when the payload's `exp` claim has not yet passed at `now`. A token
      without `exp` never expires; an `exp` that is not an integer is malformed.
      The boundary follows the library: a token whose `exp` equals `now` has
      expired. */
  predicate Live(claims: Payload, now: int)
    requires "exp" in claims ==> claims["exp"].IntClaim?
  {
    "exp" !in claims || now < claims["exp"].i
  }

  /** `jwt.decode(text, key, algorithms=algorithms)` at time `now`: parse,
      check the algorithm is allowed, check the signature, then validate `exp`. */
  function Decode(codec: Codec, text: string, key: string, algorithms: set<string>, now: int)
    : (r: Result<Payload, DecodeError>)
    ensures r.Success? ==> exists t :: codec.decode(text) == Some(t) && t.key == key && t.alg in algorithms && t.claims == r.value
    ensures r.Success? ==> "exp" in r.value ==> r.value["exp"].IntClaim? && now < r.value["exp"].i
    ensures r == Failure(ExpTypeError) <==>
              && codec.decode(text).Some?
              && var t := codec.decode(text).value;
              && t.alg in algorithms && t.key == key && ExpUnconvertible(t.claims)
  {
    match codec.decode(text)
    case None => Failure(Malformed)
    case Some(t) =>
      if t.alg !in algorithms then Failure(DisallowedAlgorithm)
      else if t.key != key then Failure(BadSignature)
      else if ExpUnconvertible(t.claims) then Failure(ExpTypeError)
      else if "exp" in t.claims && !t.claims["exp"].IntClaim? then Failure(Malformed)
      else if !Live(t.claims, now) then Failure(Expired)
      else Success(t.claims)
  }

  /** Decoding an encoded token with the signing key and an allowed algorithm
      returns its claims exactly when it is live, and reports expiry otherwise. */
  lemma DecodeEncoded(codec: Codec, claims: Payload, key: string, alg: string, algorithms: set<string>, exp: int, now: int)
    requires LawfulCodec(codec)
    requires alg in algorithms
    requires "exp" in claims && claims["exp"] == IntClaim(exp)
    ensures now < exp ==> Decode(codec, Encode(codec, claims, key, alg), key, algorithms, now) == Success(claims)
    ensures exp <= now ==> Decode(codec, Encode(codec, claims, key, alg), key, algorithms, now) == Failure(Expired)
  {
    assert codec.decode(codec.encode(Token(alg, claims, key))) == Some(Token(alg, claims, key));
  }

  /** A token signed with any other key fails with a bad signature. */
  lemma DecodeOtherKey(codec: Codec, claims: Payload, signedWith: string, key: string, alg: string, algorithms: set<string>, now: int)
    requires LawfulCodec(codec)
    requires alg in algorithms
    requires signedWith != key
    ensures Decode(codec, Encode(codec, claims, signedWith, alg), key, algorithms, now) == Failure(BadSignature)
  {
    assert codec.decode(codec.encode(Token(alg, claims, signedWith))) == Some(Token(alg, claims, signedWith));
  }
}

=== FILE: logging_setup.dfy ===
/** The module-level `LOGGING_CONFIGURED` flag with `disable_logging` and
    `enable_logging`. The logger is external: the model records the calls made
    on it for the "vetrai" namespace, in order. */
module LoggingSetup {

  /** `logger.disable("vetrai")` and `logger.enable("vetrai")`. */
  datatype LoggerCall = Disable | Enable

  datatype Op = DisableLogging | EnableLogging

  /** The flag after an operation, and the logger calls it made. */
  datatype Outcome = Outcome(configured: bool, calls: seq<LoggerCall>)

  /** One operation against the flag. */
  function Apply(configured: bool, op: Op): (o: Outcome)
    ensures o.configured
    ensures op == DisableLogging && configured ==> o == Outcome(configured, [])
    ensures op == DisableLogging && !configured ==> o.calls == [Disable]
    ensures op == EnableLogging ==> o.calls == [Enable]
  {
    match op
    case DisableLogging => if !configured then Outcome(true, [Disable]) else Outcome(configured, [])
    case EnableLogging => Outcome(true, [Enable])
  }

  /** A sequence of operations starting from the flag value `configured`. */
  function Run(configured: bool, ops: seq<Op>): Outcome
    decreases |ops|
  {
    if |ops| == 0 then Outcome(configured, [])
    else
      var first := Apply(configured, ops[0]);
      var rest := Run(first.configured, ops[1..]);
      Outcome(rest.configured, first.calls + rest.calls)
  }

  function CountDisables(calls: seq<LoggerCall>): nat {
    if |calls| == 0 then 0 else (if calls[0] == Disable then 1 else 0) + CountDisables(calls[1..])
  }

  function CountEnables(calls: seq<LoggerCall>): nat {
    if |calls| == 0 then 0 else (if calls[0] == Enable then 1 else 0) + CountEnables(calls[1..])
  }

  function CountEnableOps(ops: seq<Op>): nat {
    if |ops| == 0 then 0 else (if ops[0] == EnableLogging then 1 else 0) + CountEnableOps(ops[1..])
  }

  /** Whether "vetrai" logging is on after the logger receives `calls`,
      starting from `enabled`: the last call wins. */
  function LoggerEnabled(enabled: bool, calls: seq<LoggerCall>): bool
    decreases |calls|
  {
    if |calls| == 0 then enabled else LoggerEnabled(calls[0] == Enable, calls[1..])
  }

  lemma {:induction false} CountsAppend(a: seq<LoggerCall>, b: seq<LoggerCall>)
    ensures CountDisables(a + b) == CountDisables(a) + CountDisables(b)
    ensures CountEnables(a + b) == CountEnables(a) + CountEnables(b)
    ensures forall e :: LoggerEnabled(e, a + b) == LoggerEnabled(LoggerEnabled(e, a), b)
    decreases |a|
  {
    if |a| > 0 {
      assert (a + b)[1..] == a[1..] + b;
      CountsAppend(a[1..], b);
    } else {
      assert a + b == b;
    }
  }

  /** Once the flag is set, `disable_logging` never reaches the logger again. */
  lemma {:induction false} NoDisableOnceConfigured(ops: seq<Op>)
    ensures CountDisables(Run(true, ops).calls) == 0
    decreases |ops|
  {
    if |ops| > 0 {
      var first := Apply(true, ops[0]);
      NoDisableOnceConfigured(ops[1..]);
      CountsAppend(first.calls, Run(first.configured, ops[1..]).calls);
    }
  }

  /** Over any run, the logger is disabled at most once (never, if the flag
      started set), `enable` reaches it once per `enable_logging`, and after
      any operation at all the flag is set. */
  lemma {:induction false} RunCalls(configured: bool, ops: seq<Op>)
    ensures CountDisables(Run(configured, ops).calls) <= (if configured then 0 else 1)
    ensures CountEnables(Run(configured, ops).calls) == CountEnableOps(ops)
    ensures Run(configured, ops).configured == (configured || |ops| > 0)
    decreases |ops|
  {
    if |ops| > 0 {
      var first := Apply(configured, ops[0]);
      RunCalls(first.configured, ops[1..]);
      NoDisableOnceConfigured(ops[1..]);
      CountsAppend(first.calls, Run(first.configured, ops[1..]).calls);
    }
  }

  /** Calls without a `disable` leave logging on once it is on. */
  lemma {:induction false} StaysEnabled(calls: seq<LoggerCall>)
    requires CountDisables(calls) == 0
    ensures LoggerEnabled(true, calls)
    decreases |calls|
  {
    if |calls| > 0 {
      StaysEnabled(calls[1..]);
    }
  }

  /** After `enable_logging` has been called, no number of later
      `disable_logging` calls turns "vetrai" logging off again. */
  lemma {:induction false} EnableIsFinal(configured: bool, ops: seq<Op>, loggerStart: bool)
    requires EnableLogging in ops
    ensures LoggerEnabled(loggerStart, Run(configured, ops).calls)
    decreases |ops|
  {
    var first := Apply(configured, ops[0]);
    var rest := Run(first.configured, ops[1..]).calls;
    CountsAppend(first.calls, rest);
    if ops[0] == EnableLogging {
      NoDisableOnceConfigured(ops[1..]);
      StaysEnabled(rest);
    } else {
      assert ops == [ops[0]] + ops[1..];
      EnableIsFinal(first.configured, ops[1..], LoggerEnabled(loggerStart, first.calls));
    }
  }
}

=== FILE: models.dfy ===
/** The records of the authentication core: the `auth_users` row, its public
    projection, the login request with its field constraints, and the
    access-token payload. Timestamps are whole seconds. */
module Models {
  import opened Wrappers
  import Passwords
  import Jwt

  const DEFAULT_ORG_ID: int := 1
  const DEFAULT_ROLE: string := "user"

  /** A row of `auth_users`. `role` is free text: "user", "org_admin" and
      "super_admin" are the values in use, but nothing enforces them. */
  datatype User = User(
    id: int,
    username: string,
    email: string,
    hashedPassword: Passwords.Digest,
    fullName: Option<string>,
    isActive: bool,
    isSuperuser: bool,
    orgId: int,
    role: string,
    createdAt: int,
    updatedAt: int)

  /** A row inserted with only the required columns given: the column defaults
      fill in the rest. */
  function NewUser(id: int, username: string, email: string, hashed: Passwords.Digest,
                   fullName: Option<string>, now: int): (u: User)
    ensures u.id == id && u.username == username && u.email == email
    ensures u.hashedPassword == hashed && u.fullName == fullName
    ensures u.isActive && !u.isSuperuser
    ensures u.orgId == 1 && u.role == "user"
    ensures u.createdAt == now && u.updatedAt == now
  {
    User(id, username, email, hashed, fullName, true, false, DEFAULT_ORG_ID, DEFAULT_ROLE, now, now)
  }

  /** The user store: the rows of `auth_users` in the order the database
      returns them. */
  type Store = seq<User>

  /** The table's key constraints: `id` is the primary key, `username` and
      `email` are each unique. */
  ghost predicate UniqueKeys(store: Store) {
    forall i, j :: 0 <= i < j < |store| ==>
      && store[i].id != store[j].id
      && store[i].username != store[j].username
      && store[i].email != store[j].email
  }

  /** `UserSchema`: what the API returns about a user. */
  datatype UserSchema = UserSchema(
    id: int,
    username: string,
    email: string,
    fullName: Option<string>,
    isActive: bool,
    isSuperuser: bool,
    orgId: int,
    role: string,
    createdAt: int)

  /** `UserSchema.from_orm(user)`. */
  function ToSchema(u: User): (s: UserSchema)
    ensures s.id == u.id && s.username == u.username && s.email == u.email
    ensures s.fullName == u.fullName && s.isActive == u.isActive && s.isSuperuser == u.isSuperuser
    ensures s.orgId == u.orgId && s.role == u.role && s.createdAt == u.createdAt
  {
    UserSchema(u.id, u.username, u.email, u.fullName, u.isActive, u.isSuperuser, u.orgId, u.role, u.createdAt)
  }

  /** The public projection carries nothing of the password hash (nor of
      `updated_at`): users that differ only there look identical. */
  lemma SchemaHidesPassword(u: User, hashed: Passwords.Digest, updatedAt: int)
    ensures ToSchema(u.(hashedPassword := hashed, updatedAt := updatedAt)) == ToSchema(u)
  {
  }

  /** `LoginRequest`: both fields are required strings. */
  datatype LoginRequest = LoginRequest(username: string, password: string)

  /** The request validation: username at least 3 characters, password at
      least 6. */
  predicate ValidLoginRequest(req: LoginRequest) {
    |req.username| >= 3 && |req.password| >= 6
  }

  /** `TokenData`: the fields an access token must carry. */
  datatype TokenData = TokenData(userId: int, username: string, email: string, orgId: int, role: string, exp: int)

  predicate HasInt(p: Jwt.Payload, name: string) {
    name in p && p[name].IntClaim?
  }

  predicate HasStr(p: Jwt.Payload, name: string) {
    name in p && p[name].StrClaim?
  }

  /** Building `TokenData` from a decoded payload: every field must be present
      with the right type, otherwise construction raises (None here). */
  function ReadTokenData(p: Jwt.Payload): (r: Option<TokenData>)
    ensures r.Some? <==>
      HasInt(p, "user_id") && HasStr(p, "username") && HasStr(p, "email") &&
      HasInt(p, "org_id") && HasStr(p, "role") && HasInt(p, "exp")
    ensures r.Some? ==>
      && p["user_id"] == Jwt.IntClaim(r.value.userId)
      && p["username"] == Jwt.StrClaim(r.value.username)
      && p["email"] == Jwt.StrClaim(r.value.email)
      && p["org_id"] == Jwt.IntClaim(r.value.orgId)
      && p["role"] == Jwt.StrClaim(r.value.role)
      && p["exp"] == Jwt.IntClaim(r.value.exp)
  {
    if HasInt(p, "user_id") && HasStr(p, "username") && HasStr(p, "email")
       && HasInt(p, "org_id") && HasStr(p, "role") && HasInt(p, "exp")
    then Some(TokenData(p["user_id"].i, p["username"].s, p["email"].s, p["org_id"].i, p["role"].s, p["exp"].i))
    else None
  }
}

=== FILE: passwords.dfy ===
/** The password hasher behind `AuthService.hash_password` and
    `AuthService.verify_password`. bcrypt itself is not modelled: the
    key-derivation step is an arbitrary function `kdf` supplied by the caller,
    and the stored digest carries its salt next to the derived checksum, as a
    bcrypt hash string does. Fresh salts are a parameter (the source draws them
    at random). */
module Passwords {

  type Salt = string
  type Checksum = string

  /** The salted one-way transform: plaintext and salt to checksum. */
  type Kdf = (string, Salt) -> Checksum

  /** A stored password hash. It holds no plaintext, only what `kdf` produced. */
  datatype Digest = Digest(salt: Salt, checksum: Checksum)

  /** Distinct passwords never derive the same checksum under one salt. Only the
      rejection of wrong passwords depends on this; it is a premise of the
      lemmas that need it, never an assumption about every `kdf`. */
  ghost predicate CollisionFree(kdf: Kdf) {
    forall p, q, salt :: p != q ==> kdf(p, salt) != kdf(q, salt)
  }

  /** `hash_password`: derive a checksum under a fresh salt. */
  function HashPassword(kdf: Kdf, password: string, salt: Salt): (d: Digest)
    ensures d.salt == salt
  {
    Digest(salt, kdf(password, salt))
  }

  /** `verify_password`: re-derive under the digest's own salt and compare. */
  function VerifyPassword(kdf: Kdf, plain: string, hashed: Digest): (ok: bool)
    ensures ok <==> hashed == HashPassword(kdf, plain, hashed.salt)
  {
    kdf(plain, hashed.salt) == hashed.checksum
  }

  /** A password always verifies against its own hash, whatever the salt and
      whatever the key-derivation function. */
  lemma VerifyAcceptsOwnHash(kdf: Kdf, password: string, salt: Salt)
    ensures VerifyPassword(kdf, password, HashPassword(kdf, password, salt))
  {
  }

  /** Any other password is rejected when the derivation is collision-free. */
  lemma VerifyRejectsOtherPassword(kdf: Kdf, password: string, other: string, salt: Salt)
    requires CollisionFree(kdf)
    requires other != password
    ensures !VerifyPassword(kdf, other, HashPassword(kdf, password, salt))
  {
  }
}

=== FILE: pystr.dfy ===
/** The two pieces of Python `str` behaviour the bearer-header parser relies on:
    `str.split()` with no separator and `str.lower()`. */
module PyStr {

  /** Python's `str.isspace` for a single code point: the characters that
      `str.split()` with no argument treats as separators. */
  predicate IsSpace(c: char) {
    || c == ' '
    || ('\t' <= c <= '\r')
    || ('\U{1C}' <= c <= '\U{1F}')
    || c == '\U{85}'
    || c == '\U{A0}'
    || c == '\U{1680}'
    || ('\U{2000}' <= c <= '\U{200A}')
    || c == '\U{2028}'
    || c == '\U{2029}'
    || c == '\U{202F}'
    || c == '\U{205F}'
    || c == '\U{3000}'
  }

  /** A non-empty run of non-whitespace characters: what `split()` yields. */
  predicate IsWord(w: string) {
    |w| > 0 && forall i :: 0 <= i < |w| ==> !IsSpace(w[i])
  }

  /** Length of the longest whitespace-free prefix of `s`. */
  function WordEnd(s: string): (n: nat)
    ensures n <= |s|
    ensures forall i :: 0 <= i < n ==> !IsSpace(s[i])
    ensures n < |s| ==> IsSpace(s[n])
  {
    if |s| == 0 || IsSpace(s[0]) then 0 else 1 + WordEnd(s[1..])
  }

  /** `s.split()`: the maximal whitespace-free runs of `s`, in order; leading,
      trailing and repeated whitespace produce no empty words. */
  function Split(s: string): (words: seq<string>)
    ensures forall k :: 0 <= k < |words| ==> IsWord(words[k])
    decreases |s|
  {
    if |s| == 0 then []
    else if IsSpace(s[0]) then Split(s[1..])
    else
      var n := WordEnd(s);
      [s[..n]] + Split(s[n..])
  }

  /** Reference definition: `s` with every whitespace character deleted. */
  function Squeeze(s: string): string {
    if |s| == 0 then ""
    else if IsSpace(s[0]) then Squeeze(s[1..])
    else [s[0]] + Squeeze(s[1..])
  }

  function Concat(words: seq<string>): string {
    if |words| == 0 then "" else words[0] + Concat(words[1..])
  }

  /** `" ".join(words)`. */
  function JoinSpaced(words: seq<string>): string {
    if |words| == 0 then ""
    else if |words| == 1 then words[0]
    else words[0] + " " + JoinSpaced(words[1..])
  }

  lemma {:induction false} SqueezeAppend(a: string, b: string)
    ensures Squeeze(a + b) == Squeeze(a) + Squeeze(b)
    decreases |a|
  {
    if |a| == 0 {
      assert a + b == b;
    } else {
      assert (a + b)[1..] == a[1..] + b;
      SqueezeAppend(a[1..], b);
    }
  }

  lemma {:induction false} SqueezeWord(w: string)
    requires forall i :: 0 <= i < |w| ==> !IsSpace(w[i])
    ensures Squeeze(w) == w
    decreases |w|
  {
    if |w| > 0 {
      SqueezeWord(w[1..]);
      assert w == [w[0]] + w[1..];
    }
  }

  /** The words `split()` returns are exactly the non-whitespace characters of
      the input, in order: nothing is dropped, nothing is invented. */
  lemma {:induction false} SplitKeepsText(s: string)
    ensures Concat(Split(s)) == Squeeze(s)
    decreases |s|
  {
    if |s| == 0 {
    } else if IsSpace(s[0]) {
      SplitKeepsText(s[1..]);
    } else {
      var n := WordEnd(s);
      assert s == s[..n] + s[n..];
      SplitKeepsText(s[n..]);
      SqueezeAppend(s[..n], s[n..]);
      SqueezeWord(s[..n]);
      var ws := [s[..n]] + Split(s[n..]);
      assert ws[0] == s[..n] && ws[1..] == Split(s[n..]);
    }
  }

  /** A word followed by a separator (or by nothing) is split off whole. */
  lemma SplitWordThen(w: string, rest: string)
    requires IsWord(w)
    requires |rest| == 0 || IsSpace(rest[0])
    ensures Split(w + rest) == [w] + Split(rest)
  {
    var s := w + rest;
    var n := WordEnd(s);
    assert forall i :: 0 <= i < |w| ==> s[i] == w[i];
    assert |rest| > 0 ==> s[|w|] == rest[0];
    assert n == |w|;
    assert s[..n] == w;
    assert s[n..] == rest;
  }

  /** A single word splits to itself. */
  lemma SplitOneWord(w: string)
    requires IsWord(w)
    ensures Split(w) == [w]
  {
    SplitWordThen(w, "");
    assert w + "" == w;
  }

  /** Any whitespace character is a split point: what lies before it and what
      lies after it split independently. With `SplitOneWord` this fixes
      `split()` completely. */
  lemma {:induction false} SplitAtSpace(a: string, c: char, b: string)
    requires IsSpace(c)
    ensures Split(a + [c] + b) == Split(a) + Split(b)
    decreases |a|
  {
    var s := a + [c] + b;
    if |a| == 0 {
      assert s == [c] + b;
      assert s[1..] == b;
    } else if IsSpace(a[0]) {
      assert s[1..] == a[1..] + [c] + b;
      SplitAtSpace(a[1..], c, b);
    } else {
      var m := WordEnd(a);
      var n := WordEnd(s);
      assert forall i :: 0 <= i < |a| ==> s[i] == a[i];
      assert s[|a|] == c;
      assert n == m;
      assert s[..n] == a[..m];
      assert s[n..] == a[m..] + [c] + b;
      SplitAtSpace(a[m..], c, b);
    }
  }

  /** `split()` inverts `" ".join` on words. */
  lemma {:induction false} SplitJoinSpaced(words: seq<string>)
    requires forall k :: 0 <= k < |words| ==> IsWord(words[k])
    ensures Split(JoinSpaced(words)) == words
    decreases |words|
  {
    if |words| == 0 {
    } else if |words| == 1 {
      SplitWordThen(words[0], "");
      assert words[0] + "" == words[0];
    } else {
      var tail := JoinSpaced(words[1..]);
      SplitJoinSpaced(words[1..]);
      assert words[0] + " " + tail == words[0] + (" " + tail);
      SplitWordThen(words[0], " " + tail);
      assert (" " + tail)[1..] == tail;
      assert words == [words[0]] + words[1..];
    }
  }

  /** ASCII case folding; every other code point is left alone. */
  function LowerChar(c: char): char {
    if 'A' <= c <= 'Z' then (c as int + 32) as char else c
  }

  /** `s.lower()` restricted to the cases that matter for comparing against
      "bearer": the only non-ASCII code points whose lower case contains an
      ASCII letter are U+212A KELVIN SIGN (to "k") and U+0130 (to "i" plus a
      combining dot), and neither "k" nor "i" occurs in "bearer". */
  function Lower(s: string): (r: string)
    ensures |r| == |s|
  {
    seq(|s|, i requires 0 <= i < |s| => LowerChar(s[i]))
  }

  /** `scheme.lower() == "bearer"` holds exactly for the 64 ASCII spellings of
      "bearer" in mixed case. */
  lemma LowerIsBearer(s: string)
    ensures Lower(s) == "bearer" <==>
            (|s| == 6 && forall i :: 0 <= i < 6 ==> s[i] == "bearer"[i] || s[i] == "BEARER"[i])
  {
    if Lower(s) == "bearer" {
      forall i | 0 <= i < 6
        ensures s[i] == "bearer"[i] || s[i] == "BEARER"[i]
      {
        assert LowerChar(s[i]) == "bearer"[i];
      }
    }
    if |s| == 6 && forall i :: 0 <= i < 6 ==> s[i] == "bearer"[i] || s[i] == "BEARER"[i] {
      forall i | 0 <= i < 6
        ensures Lower(s)[i] == "bearer"[i]
      {
      }
    }
  }
}

=== FILE: route_properties.dfy ===
/** What the `/api/auth` handlers promise, stated over all stores, requests,
    clocks and configurations. */
module RouteProperties {
  import opened Wrappers
  import PyStr
  import Passwords
  import Jwt
  import Models
  import AuthService
  import UserService
  import opened Routes

  // ---------------------------------------------------------------- login

  /** The request model's field constraints: a username shorter than 3
      characters or a password shorter than 6 is refused before any lookup. */
  lemma LoginRequestValidation(cfg: AuthService.Config, store: Models.Store, req: Models.LoginRequest, now: int)
    ensures Login(cfg, store, req, now) == ValidationError <==> |req.username| < 3 || |req.password| < 6
  {
  }

  /** No username enumeration: an unknown username and a known username with
      the wrong password get byte-identical answers, whether or not that
      account is active. */
  lemma LoginNoEnumeration(cfg: AuthService.Config, store1: Models.Store, req1: Models.LoginRequest, now1: int,
                           store2: Models.Store, req2: Models.LoginRequest, now2: int)
    requires Models.ValidLoginRequest(req1) && Models.ValidLoginRequest(req2)
    requires UserService.GetUserByUsername(store1, req1.username).None?
    requires var u := UserService.GetUserByUsername(store2, req2.username);
             u.Some? && !Passwords.VerifyPassword(cfg.kdf, req2.password, u.value.hashedPassword)
    ensures Login(cfg, store1, req1, now1) == Login(cfg, store2, req2, now2)
    ensures Login(cfg, store1, req1, now1) == HttpError(401, "Invalid username or password")
  {
  }

  /** A successful login answers with the stored user's public profile, an
      access token that verifies to that user's identity, tenant and role for
      30 minutes, and a refresh token that verifies to that user's id for
      7 days. */
  lemma LoginIssuesTokensForUser(cfg: AuthService.Config, store: Models.Store, req: Models.LoginRequest,
                                 now: int, later: int)
    requires Jwt.LawfulCodec(cfg.codec)
    requires Login(cfg, store, req, now).Ok?
    ensures var u := UserService.GetUserByUsername(store, req.username).value;
      var r := Login(cfg, store, req, now).body;
      && u.username == req.username && u.isActive
      && r.user == Models.ToSchema(u)
      && (later < now + 30 * 60 ==>
            AuthService.VerifyToken(cfg, r.accessToken, later) == AuthService.Valid(AuthService.TokenDataOf(u, now + 30 * 60)))
      && (later < now + 7 * 24 * 60 * 60 ==>
            AuthService.VerifyRefreshToken(cfg, r.refreshToken, later)
              == AuthService.Valid(AuthService.RefreshClaims(u, now + 7 * 24 * 60 * 60)))
  {
    var u := UserService.GetUserByUsername(store, req.username).value;
    AuthService.AccessTokenRoundTrip(cfg, u, now, None, later);
    AuthService.RefreshTokenRoundTrip(cfg, u, now, later);
  }

  // -------------------------------------------------------------- refresh

  /** Freshness: a refresh token issued for an old version of a user record
      yields, while live, an access token carrying the CURRENT stored role,
      organisation, username and email; deactivation in the store makes the
      same refresh token useless. */
  lemma RefreshReflectsStore(cfg: AuthService.Config, store: Models.Store, issuedFor: Models.User, current: Models.User,
                             issuedAt: int, now: int)
    requires Jwt.LawfulCodec(cfg.codec)
    requires Models.UniqueKeys(store)
    requires current in store && current.id == issuedFor.id
    requires now < issuedAt + 7 * 24 * 60 * 60
    ensures var token := AuthService.CreateRefreshToken(cfg, issuedFor, issuedAt);
      && (current.isActive ==>
            && Refresh(cfg, store, token, now)
                 == Ok(RefreshResponse(AuthService.CreateAccessToken(cfg, current, now, None), token))
            && AuthService.VerifyToken(cfg, Refresh(cfg, store, token, now).body.accessToken, now)
                 == AuthService.Valid(AuthService.TokenDataOf(current, now + 30 * 60)))
      && (!current.isActive ==>
            Refresh(cfg, store, token, now) == HttpError(401, "User not found or inactive"))
  {
    AuthService.RefreshTokenRoundTrip(cfg, issuedFor, issuedAt, now);
    UserService.LookupFindsTheUser(store, current);
    AuthService.AccessTokenRoundTrip(cfg, current, now, None, now);
  }

  /** An access token, live or expired, never works as a refresh token. */
  lemma RefreshRejectsAccessToken(cfg: AuthService.Config, store: Models.Store, u: Models.User,
                                  issuedAt: int, expiresDelta: Option<int>, now: int)
    requires Jwt.LawfulCodec(cfg.codec)
    ensures Refresh(cfg, store, AuthService.CreateAccessToken(cfg, u, issuedAt, expiresDelta), now)
            == HttpError(401, "Invalid or expired refresh token")
  {
    AuthService.TokenTypesNotInterchangeable(cfg, u, issuedAt, expiresDelta, now);
    AuthService.AccessTokenRoundTrip(cfg, u, issuedAt, expiresDelta, now);
    var exp := issuedAt + AuthService.AccessLifetime(expiresDelta);
    Jwt.DecodeEncoded(cfg.codec, AuthService.AccessClaims(u, exp), cfg.secretKey, "HS256", {"HS256"}, exp, now);
  }

  // ------------------------------------------------------------------ /me

  /** The header parser accepts exactly a mixed-case "bearer" and one word,
      and the token it returns is the header's text minus the scheme and the
      whitespace. */
  lemma ParseBearerSound(header: string)
    ensures ParseBearer(header).Some? ==>
      |PyStr.Split(header)| == 2 &&
      PyStr.Lower(PyStr.Split(header)[0]) == "bearer" &&
      PyStr.Squeeze(header) == PyStr.Split(header)[0] + ParseBearer(header).value
  {
    PyStr.SplitKeepsText(header);
    var parts := PyStr.Split(header);
    if |parts| == 2 {
      assert PyStr.Concat(parts[1..][1..]) == "";
      assert PyStr.Concat(parts[1..]) == parts[1];
      assert PyStr.Concat(parts) == parts[0] + parts[1];
    }
  }

  /** `scheme + " " + token` parses to the token exactly when the scheme is
      some spelling of "bearer". */
  lemma ParseBearerOfJoined(scheme: string, token: string)
    requires PyStr.IsWord(scheme) && PyStr.IsWord(token)
    ensures ParseBearer(scheme + " " + token) ==
            (if PyStr.Lower(scheme) == "bearer" then Some(token) else None)
  {
    PyStr.SplitJoinSpaced([scheme, token]);
    assert PyStr.JoinSpaced([scheme, token]) == scheme + " " + PyStr.JoinSpaced([token]);
  }

  /** The header a client builds, "Bearer " and the token, parses back to the
      token. */
  lemma BearerHeader(token: string)
    requires PyStr.IsWord(token)
    ensures ParseBearer("Bearer " + token) == Some(token)
  {
    ParseBearerOfJoined("Bearer", token);
    assert "Bearer" + " " + token == "Bearer " + token;
    PyStr.LowerIsBearer("Bearer");
  }

  /** `/me` refuses with 401, before any token is looked at, when the header
      is absent or empty, and when it is not "bearer" plus exactly one word. */
  lemma MeHeaderFailures(cfg: AuthService.Config, store: Models.Store, authorization: Option<string>, now: int)
    ensures authorization.None? || authorization == Some("") ==>
            Me(cfg, store, authorization, now) == HttpError(401, "Missing authorization header")
    ensures authorization.Some? && authorization.value != "" ==>
            (Me(cfg, store, authorization, now) == HttpError(401, "Invalid authorization header format") <==>
             |PyStr.Split(authorization.value)| != 2 || PyStr.Lower(PyStr.Split(authorization.value)[0]) != "bearer")
  {
  }

  /** `Authorization: Basic abc` is answered 401, not 403 or 500. */
  lemma MeRejectsBasicScheme(cfg: AuthService.Config, store: Models.Store, now: int)
    ensures Me(cfg, store, Some("Basic abc"), now) == HttpError(401, "Invalid authorization header format")
  {
    ParseBearerOfJoined("Basic", "abc");
    assert "Basic" + " " + "abc" == "Basic abc";
  }

  /** `/me`'s outcome once the header has parsed: 401 "Invalid or expired
      token" for a token that fails verification (expired, foreign key, other
      algorithm, wrong type, not a JWT); a server error when an authentic
      token's `exp` is null, a list or an object, or its access payload lacks
      a field; 401 "User not found or inactive" when the
      token's user is missing or inactive; otherwise the stored user's schema. */
  lemma MeOutcomes(cfg: AuthService.Config, store: Models.Store, header: string, now: int)
    requires header != "" && ParseBearer(header).Some?
    ensures var verdict := AuthService.VerifyToken(cfg, ParseBearer(header).value, now);
      && (verdict.Invalid? ==> Me(cfg, store, Some(header), now) == HttpError(401, "Invalid or expired token"))
      && (verdict.Raises? ==> Me(cfg, store, Some(header), now) == ServerError)
      && (verdict.Valid? ==>
            var u := UserService.GetUserById(store, verdict.data.userId);
            && (u.None? ==> Me(cfg, store, Some(header), now) == HttpError(401, "User not found or inactive"))
            && (u.Some? && !u.value.isActive ==>
                  Me(cfg, store, Some(header), now) == HttpError(401, "User not found or inactive"))
            && (u.Some? && u.value.isActive ==> Me(cfg, store, Some(header), now) == Ok(Models.ToSchema(u.value))))
  {
  }

  /** An issued access token presented at `/me` once it has expired is
      refused with 401, and so is any token signed with another key. */
  lemma MeRejectsExpiredOrForeignToken(cfg: AuthService.Config, store: Models.Store, u: Models.User,
                                       issuedAt: int, expiresDelta: Option<int>, claims: Jwt.Payload,
                                       otherKey: string, now: int)
    requires Jwt.LawfulCodec(cfg.codec)
    requires otherKey != cfg.secretKey
    ensures issuedAt + AuthService.AccessLifetime(expiresDelta) <= now ==>
      Me(cfg, store, Some("Bearer " + AuthService.CreateAccessToken(cfg, u, issuedAt, expiresDelta)), now)
        == HttpError(401, "Invalid or expired token")
    ensures Me(cfg, store, Some("Bearer " + Jwt.Encode(cfg.codec, claims, otherKey, "HS256")), now)
        == HttpError(401, "Invalid or expired token")
  {
    var exp := issuedAt + AuthService.AccessLifetime(expiresDelta);
    var issued := Jwt.Token("HS256", AuthService.AccessClaims(u, exp), cfg.secretKey);
    var foreign := Jwt.Token("HS256", claims, otherKey);
    assert cfg.codec.decode(cfg.codec.encode(issued)) == Some(issued);
    assert cfg.codec.decode(cfg.codec.encode(foreign)) == Some(foreign);
    BearerHeader(cfg.codec.encode(issued));
    BearerHeader(cfg.codec.encode(foreign));
    AuthService.AccessTokenRoundTrip(cfg, u, issuedAt, expiresDelta, now);
    AuthService.ForeignKeyRejected(cfg, claims, otherKey, now);
  }

  /** Identity is re-read on every request: an access token issued for an old
      version of a user record, presented while live, resolves to the CURRENT
      stored record, and is refused once that record is deactivated. */
  lemma MeUsesStoredUser(cfg: AuthService.Config, store: Models.Store, issuedFor: Models.User, current: Models.User,
                         issuedAt: int, expiresDelta: Option<int>, now: int)
    requires Jwt.LawfulCodec(cfg.codec)
    requires Models.UniqueKeys(store)
    requires current in store && current.id == issuedFor.id
    requires now < issuedAt + AuthService.AccessLifetime(expiresDelta)
    ensures var header := Some("Bearer " + AuthService.CreateAccessToken(cfg, issuedFor, issuedAt, expiresDelta));
      && (current.isActive ==> Me(cfg, store, header, now) == Ok(Models.ToSchema(current)))
      && (!current.isActive ==> Me(cfg, store, header, now) == HttpError(401, "User not found or inactive"))
  {
    var token := AuthService.CreateAccessToken(cfg, issuedFor, issuedAt, expiresDelta);
    var exp := issuedAt + AuthService.AccessLifetime(expiresDelta);
    assert cfg.codec.decode(cfg.codec.encode(Jwt.Token("HS256", AuthService.AccessClaims(issuedFor, exp), cfg.secretKey)))
           == Some(Jwt.Token("HS256", AuthService.AccessClaims(issuedFor, exp), cfg.secretKey));
    assert PyStr.IsWord(token);
    BearerHeader(token);
    AuthService.AccessTokenRoundTrip(cfg, issuedFor, issuedAt, expiresDelta, now);
    UserService.LookupFindsTheUser(store, current);
  }

  /** A refresh token in the bearer header is refused as an invalid token. */
  lemma MeRejectsRefreshToken(cfg: AuthService.Config, store: Models.Store, u: Models.User, issuedAt: int, now: int)
    requires Jwt.LawfulCodec(cfg.codec)
    ensures Me(cfg, store, Some("Bearer " + AuthService.CreateRefreshToken(cfg, u, issuedAt)), now)
            == HttpError(401, "Invalid or expired token")
  {
    var token := AuthService.CreateRefreshToken(cfg, u, issuedAt);
    var exp := issuedAt + AuthService.REFRESH_TOKEN_LIFETIME;
    assert cfg.codec.decode(cfg.codec.encode(Jwt.Token("HS256", AuthService.RefreshClaims(u, exp), cfg.secretKey)))
           == Some(Jwt.Token("HS256", AuthService.RefreshClaims(u, exp), cfg.secretKey));
    assert PyStr.IsWord(token);
    BearerHeader(token);
    Jwt.DecodeEncoded(cfg.codec, AuthService.RefreshClaims(u, exp), cfg.secretKey, "HS256", {"HS256"}, exp, now);
  }

  /** An authentic token whose `exp` is null, a list or an object makes
      `int()` raise inside the JWT library, past both verifiers' `except`
      clauses: `/me` and `/refresh` answer with a server error, not 401. */
  lemma UnconvertibleExpIsServerError(cfg: AuthService.Config, store: Models.Store, claims: Jwt.Payload, now: int)
    requires Jwt.LawfulCodec(cfg.codec)
    requires Jwt.ExpUnconvertible(claims)
    ensures var token := Jwt.Encode(cfg.codec, claims, cfg.secretKey, "HS256");
      && AuthService.VerifyToken(cfg, token, now) == AuthService.Raises
      && AuthService.VerifyRefreshToken(cfg, token, now) == AuthService.Raises
      && Me(cfg, store, Some("Bearer " + token), now) == ServerError
      && Refresh(cfg, store, token, now) == ServerError
  {
    var t := Jwt.Token("HS256", claims, cfg.secretKey);
    assert cfg.codec.decode(cfg.codec.encode(t)) == Some(t);
    BearerHeader(cfg.codec.encode(t));
  }

  // ------------------------------------------------------------ scenario

  /** On a freshly bootstrapped store, "admin"/"admin123" logs in, and the
      access token carries role "super_admin" in organisation 1. */
  lemma AdminLoginAfterBootstrap(cfg: AuthService.Config, newId: int, salt: Passwords.Salt, bootedAt: int, now: int)
    requires Jwt.LawfulCodec(cfg.codec)
    ensures var store := UserService.CreateDefaultUser(cfg.kdf, [], newId, salt, bootedAt).store;
      var r := Login(cfg, store, Models.LoginRequest("admin", "admin123"), now);
      && r.Ok?
      && var data := AuthService.VerifyToken(cfg, r.body.accessToken, now);
      && data.Valid? && data.data.role == "super_admin" && data.data.orgId == 1
      && data.data.username == "admin" && data.data.userId == newId
  {
    var boot := UserService.CreateDefaultUser(cfg.kdf, [], newId, salt, bootedAt);
    var admin := boot.created.value;
    Passwords.VerifyAcceptsOwnHash(cfg.kdf, "admin123", salt);
    assert UserService.GetUserByUsername(boot.store, "admin") == Some(admin);
    AuthService.AccessTokenRoundTrip(cfg, admin, now, None, now);
  }
}

=== FILE: routes.dfy ===
/** The `/api/auth` handlers: login, refresh, current user and logout, as pure
    functions of the configuration, the user store, the request and the clock.
    A raised `HTTPException` is an `HttpError`; a request body that fails
    validation is answered 422 before the handler runs; an exception escaping
    a handler is a server error. */
module Routes {
  import opened Wrappers
  import PyStr
  import Models
  import AuthService
  import UserService

  const HTTP_401_UNAUTHORIZED: int := 401
  const HTTP_403_FORBIDDEN: int := 403

  const INVALID_CREDENTIALS: string := "Invalid username or password"
  const INACTIVE_ACCOUNT: string := "User account is inactive"
  const INVALID_REFRESH_TOKEN: string := "Invalid or expired refresh token"
  const USER_NOT_FOUND_OR_INACTIVE: string := "User not found or inactive"
  const MISSING_HEADER: string := "Missing authorization header"
  const INVALID_HEADER_FORMAT: string := "Invalid authorization header format"
  const INVALID_TOKEN: string := "Invalid or expired token"
  const LOGGED_OUT: string := "Logged out successfully"

  datatype Response<+T> =
    | Ok(body: T)
    | HttpError(status: int, detail: string)
    | ValidationError
    | ServerError

  datatype LoginResponse = LoginResponse(accessToken: string, refreshToken: string, user: Models.UserSchema)

  datatype RefreshResponse = RefreshResponse(accessToken: string, refreshToken: string)

  datatype LogoutResponse = LogoutResponse(message: string)

  /** `POST /login`. */
  function Login(cfg: AuthService.Config, store: Models.Store, req: Models.LoginRequest, now: int)
    : (r: Response<LoginResponse>)
    ensures r == ValidationError <==> !Models.ValidLoginRequest(req)
    ensures Models.ValidLoginRequest(req) ==>
      var found := UserService.GetUserByUsername(store, req.username);
      var passwordOk := found.Some? && AuthService.VerifyPassword(cfg, req.password, found.value.hashedPassword);
      && (r == HttpError(401, "Invalid username or password") <==> !passwordOk)
      && (r == HttpError(403, "User account is inactive") <==> passwordOk && !found.value.isActive)
      && (r.Ok? <==> passwordOk && found.value.isActive)
    ensures r.Ok? ==>
      var u := UserService.GetUserByUsername(store, req.username).value;
      r.body == LoginResponse(AuthService.CreateAccessToken(cfg, u, now, None),
                              AuthService.CreateRefreshToken(cfg, u, now),
                              Models.ToSchema(u))
  {
    if !Models.ValidLoginRequest(req) then ValidationError
    else match UserService.GetUserByUsername(store, req.username)
      case None => HttpError(HTTP_401_UNAUTHORIZED, INVALID_CREDENTIALS)
      case Some(u) =>
        if !AuthService.VerifyPassword(cfg, req.password, u.hashedPassword) then
          HttpError(HTTP_401_UNAUTHORIZED, INVALID_CREDENTIALS)
        else if !u.isActive then
          HttpError(HTTP_403_FORBIDDEN, INACTIVE_ACCOUNT)
        else
          Ok(LoginResponse(
            AuthService.CreateAccessToken(cfg, u, now, None),
            AuthService.CreateRefreshToken(cfg, u, now),
            Models.ToSchema(u)))
  }

  /** `POST /refresh`. */
  function Refresh(cfg: AuthService.Config, store: Models.Store, refreshToken: string, now: int)
    : (r: Response<RefreshResponse>)
    ensures AuthService.VerifyRefreshToken(cfg, refreshToken, now).Invalid? <==>
            r == HttpError(401, "Invalid or expired refresh token")
    ensures r == ServerError <==>
            || AuthService.ExpRaises(cfg, refreshToken)
            || (AuthService.VerifyRefreshToken(cfg, refreshToken, now).Valid? &&
                "user_id" !in AuthService.VerifyRefreshToken(cfg, refreshToken, now).data)
    ensures r.Ok? ==>
      var payload := AuthService.VerifyRefreshToken(cfg, refreshToken, now).data;
      && "user_id" in payload && payload["user_id"].IntClaim?
      && var u := UserService.GetUserById(store, payload["user_id"].i);
      && u.Some? && u.value.isActive
      && r.body == RefreshResponse(AuthService.CreateAccessToken(cfg, u.value, now, None), refreshToken)
    ensures (AuthService.VerifyRefreshToken(cfg, refreshToken, now).Valid? &&
             var payload := AuthService.VerifyRefreshToken(cfg, refreshToken, now).data;
             "user_id" in payload && payload["user_id"].IntClaim? &&
             var u := UserService.GetUserById(store, payload["user_id"].i);
             (u.None? || !u.value.isActive))
            ==> r == HttpError(401, "User not found or inactive")
  {
    match AuthService.VerifyRefreshToken(cfg, refreshToken, now)
    case Raises => ServerError
    case Invalid(_) => HttpError(HTTP_401_UNAUTHORIZED, INVALID_REFRESH_TOKEN)
    case Valid(payload) =>
      if "user_id" !in payload then ServerError
      else
        var user := match payload["user_id"]
          case IntClaim(id) => UserService.GetUserById(store, id)
          case _ => None;
        if user.None? || !user.value.isActive then HttpError(HTTP_401_UNAUTHORIZED, USER_NOT_FOUND_OR_INACTIVE)
        else Ok(RefreshResponse(AuthService.CreateAccessToken(cfg, user.value, now, None), refreshToken))
  }

  /** `scheme, token = authorization.split()` followed by the case-insensitive
      scheme check: the token, or None where Python raises `ValueError`. */
  function ParseBearer(header: string): (r: Option<string>)
    ensures r.Some? ==> PyStr.IsWord(r.value)
  {
    var parts := PyStr.Split(header);
    if |parts| == 2 && PyStr.Lower(parts[0]) == "bearer" then Some(parts[1]) else None
  }

  /** `GET /me`; `authorization` is the header, None when absent. */
  function Me(cfg: AuthService.Config, store: Models.Store, authorization: Option<string>, now: int)
    : (r: Response<Models.UserSchema>)
    ensures authorization.None? || authorization == Some("") ==> r == HttpError(401, "Missing authorization header")
    ensures authorization.Some? && authorization.value != "" && ParseBearer(authorization.value).None? ==>
            r == HttpError(401, "Invalid authorization header format")
    ensures r.Ok? ==>
      && authorization.Some? && ParseBearer(authorization.value).Some?
      && var verdict := AuthService.VerifyToken(cfg, ParseBearer(authorization.value).value, now);
      && verdict.Valid?
      && var u := UserService.GetUserById(store, verdict.data.userId);
      && u.Some? && u.value.isActive
      && r.body == Models.ToSchema(u.value)
  {
    if authorization.None? || authorization.value == "" then HttpError(HTTP_401_UNAUTHORIZED, MISSING_HEADER)
    else match ParseBearer(authorization.value)
      case None => HttpError(HTTP_401_UNAUTHORIZED, INVALID_HEADER_FORMAT)
      case Some(token) =>
        match AuthService.VerifyToken(cfg, token, now)
        case Raises => ServerError
        case Invalid(_) => HttpError(HTTP_401_UNAUTHORIZED, INVALID_TOKEN)
        case Valid(data) =>
          match UserService.GetUserById(store, data.userId)
          case None => HttpError(HTTP_401_UNAUTHORIZED, USER_NOT_FOUND_OR_INACTIVE)
          case Some(u) =>
            if !u.isActive then HttpError(HTTP_401_UNAUTHORIZED, USER_NOT_FOUND_OR_INACTIVE)
            else Ok(Models.ToSchema(u))
  }

  /** `POST /logout`: nothing is revoked on the server; the client discards its
      tokens. It reads and changes no state, so it cannot fail. */
  function Logout(): (r: LogoutResponse)
    ensures r.message == "Logged out successfully"
  {
    LogoutResponse(LOGGED_OUT)
  }
}

=== FILE: user_service.dfy ===
/** `UserService`: the user directory over the store, and the default-admin
    bootstrap. The id the database assigns on insert, the fresh bcrypt salt and
    the clock are parameters. */
module UserService {
  import opened Wrappers
  import Passwords
  import Models

  const ADMIN_USERNAME: string := "admin"
  const ADMIN_EMAIL: string := "admin@vetrai.local"
  const ADMIN_FULL_NAME: string := "Admin User"
  const ADMIN_PASSWORD: string := "admin123"
  const ADMIN_ORG_ID: int := 1
  const ADMIN_ROLE: string := "super_admin"

  /** Index of the first stored row satisfying `matches`, as `.first()` on a
      filtered select returns it. */
  function FindFirst(store: Models.Store, matches: Models.User -> bool): (r: Option<nat>)
    ensures r.Some? ==> r.value < |store| && matches(store[r.value])
    ensures r.Some? ==> forall j :: 0 <= j < r.value ==> !matches(store[j])
    ensures r.None? ==> forall j :: 0 <= j < |store| ==> !matches(store[j])
  {
    if |store| == 0 then None
    else if matches(store[0]) then Some(0)
    else match FindFirst(store[1..], matches)
      case None => None
      case Some(k) => Some(k + 1)
  }

  /** `get_user_by_username`: a stored user with that exact username, or None
      when there is none. */
  function GetUserByUsername(store: Models.Store, username: string): (r: Option<Models.User>)
    ensures r.Some? ==> r.value in store && r.value.username == username
    ensures r.None? <==> forall j :: 0 <= j < |store| ==> store[j].username != username
  {
    match FindFirst(store, (u: Models.User) => u.username == username)
    case None => None
    case Some(k) => Some(store[k])
  }

  /** `get_user_by_id`: a stored user with that id, or None when there is none. */
  function GetUserById(store: Models.Store, id: int): (r: Option<Models.User>)
    ensures r.Some? ==> r.value in store && r.value.id == id
    ensures r.None? <==> forall j :: 0 <= j < |store| ==> store[j].id != id
  {
    match FindFirst(store, (u: Models.User) => u.id == id)
    case None => None
    case Some(k) => Some(store[k])
  }

  /** Under the table's uniqueness constraints, looking a stored user up by
      its username or by its id finds exactly that user. */
  lemma LookupFindsTheUser(store: Models.Store, u: Models.User)
    requires Models.UniqueKeys(store)
    requires u in store
    ensures GetUserByUsername(store, u.username) == Some(u)
    ensures GetUserById(store, u.id) == Some(u)
  {
    var i :| 0 <= i < |store| && store[i] == u;
    var byName := FindFirst(store, (v: Models.User) => v.username == u.username);
    var byId := FindFirst(store, (v: Models.User) => v.id == u.id);
    assert byName.Some? && byName.value == i;
    assert byId.Some? && byId.value == i;
  }

  /** The account `create_default_user` inserts. */
  function DefaultAdmin(kdf: Passwords.Kdf, newId: int, salt: Passwords.Salt, now: int): Models.User {
    Models.User(
      newId, ADMIN_USERNAME, ADMIN_EMAIL, Passwords.HashPassword(kdf, ADMIN_PASSWORD, salt),
      Some(ADMIN_FULL_NAME), true, true, ADMIN_ORG_ID, ADMIN_ROLE, now, now)
  }

  /** The store after bootstrap, and the user returned (None when nothing was
      created). */
  datatype Bootstrap = Bootstrap(store: Models.Store, created: Option<Models.User>)

  /** `create_default_user`: on an empty store insert the default admin and
      return it; on any other store do nothing and return None. */
  function CreateDefaultUser(kdf: Passwords.Kdf, store: Models.Store, newId: int, salt: Passwords.Salt, now: int)
    : (r: Bootstrap)
    ensures |store| > 0 ==> r == Bootstrap(store, None)
    ensures |store| == 0 ==> r.created.Some? && r.store == [r.created.value]
    ensures |store| == 0 ==> var a := r.created.value;
      && a.id == newId
      && a.username == "admin" && a.email == "admin@vetrai.local"
      && a.fullName == Some("Admin User")
      && a.isActive && a.isSuperuser
      && a.orgId == 1 && a.role == "super_admin"
      && a.hashedPassword == Passwords.HashPassword(kdf, "admin123", salt)
  {
    if |store| > 0 then Bootstrap(store, None)
    else
      var admin := DefaultAdmin(kdf, newId, salt, now);
      Bootstrap([admin], Some(admin))
  }

  /** Bootstrapping twice is bootstrapping once: the second call finds the
      admin and changes nothing. */
  lemma BootstrapIdempotent(kdf: Passwords.Kdf, store: Models.Store, id1: int, salt1: Passwords.Salt, t1: int,
                            id2: int, salt2: Passwords.Salt, t2: int)
    ensures var once := CreateDefaultUser(kdf, store, id1, salt1, t1);
            CreateDefaultUser(kdf, once.store, id2, salt2, t2) == Bootstrap(once.store, None)
  {
  }

  /** Bootstrap keeps the store's key constraints, and afterwards the admin
      signs in with the default password. */
  lemma BootstrapKeepsKeysAndAdminPassword(kdf: Passwords.Kdf, store: Models.Store, newId: int,
                                           salt: Passwords.Salt, now: int)
    requires Models.UniqueKeys(store)
    ensures Models.UniqueKeys(CreateDefaultUser(kdf, store, newId, salt, now).store)
    ensures |store| == 0 ==>
      var admin := GetUserByUsername(CreateDefaultUser(kdf, store, newId, salt, now).store, "admin");
      admin.Some? && Passwords.VerifyPassword(kdf, "admin123", admin.value.hashedPassword)
  {
  }
}

=== FILE: wrappers.dfy ===
/** Option and Result values shared by every module of the model: `None` stands
    for Python's `None` return, `Failure` for a typed error value. */
module Wrappers {

  datatype Option<+T> = None | Some(value: T)

  datatype Result<+T, +E> = Success(value: T) | Failure(error: E)
}
